=== FILE: README.md ===
# Expo-Map: a Dafny model of the map app's logic

Expo-Map is a small React Native map app. It shows the device's position on a
map. The user can search for a place (through the Nominatim geocoder) and ask
for driving directions to it (through OpenRouteService). The route arrives
in Google's Encoded Polyline Algorithm Format and is decoded on the device.

This project models the logic behind those features as pure Dafny functions
over immutable datatypes, and proves properties of them:

- `Polyline` (polyline.dfy) is `decodePolyline` as written. It works over the
  UTF-16 code units of the geometry string and keeps JavaScript's 32-bit `<<`
  and `|` (`JsNumbers`, jsnumbers.dfy) and its behaviour past the end of the
  string. Points are integers in units of 1e-5 degree.
- `PolylineCodec` (polyline_codec.dfy) holds the standard encoder and a
  strict decoder. The strict decoder reports a truncated or over-long group
  (`Truncated`, `Overlong`) instead of emitting a point. Proofs:
  - the strict decoder inverts the encoder;
  - the decoder as written agrees with the strict decoder wherever the strict
    one succeeds;
  - wherever the decoder as written reads past the end of the string, the
    strict decoder fails;
  - so the decoder as written also inverts the encoder.
- `PolylineExamples` (polyline_examples.dfy) works through the format's
  canonical example `` _p~iF~ps|U_ulLnnqC_mqNvxq`@ `` and a line cut short.
- `Directions` (directions.dfy) is the directions button's `getDirections`.
- `Search` (search.dfy) is the search bar's `handleSearch`, with
  JavaScript's `String.prototype.trim`.
- `App` (app.dfy) covers:
  - the app component's state;
  - the startup location effect;
  - which screen a render shows;
  - the two recenter actions;
  - the search bar's callback;
  - a session of user actions, with the invariant it keeps.

The services and the device are parameters. These are:
- the geocoder's and the routing service's responses;
- the permission prompt and the position fetch;
- whether the map reference is set.

Each handler returns its effects as values:
- the request it sends;
- the state it writes;
- the alert it raises;
- the sequence of values it writes to its `loading` flag.

Two behaviours of the code are worth knowing before reading the model:

- **A geometry cut short is not reported.** Reading past the end of the
  string gives NaN: the group ends there, and a point is still emitted.
  `Polyline.PastEndReadsAsTerminator` states this in general: reading past
  the end is the same as reading the character `?`.
  - `PolylineExamples.CutInsideGroupDecodes` shows a geometry cut inside a
    group. `_p~i` decodes to latitude 1.79984, where the complete group
    `_p~iF` gives 38.5.
  - `PolylineExamples.TruncatedLineDecodes` shows a geometry cut between two
    groups. Its longitude delta is read as 0.
  - `PolylineCodec.DecodeStrict` is a decoder that reports both cuts as
    `Truncated`. `PolylineCodec.DecodeAgrees` proves that the code's decoder
    agrees with it whenever it succeeds.
- **The fallback to `previousLocation` is unreachable.** The effect runs once,
  and its closure sees the first render's `null`. `App.Startup` models the
  branch with the captured value as an input. `App.FallbackNeverTaken`
  proves that the startup the app actually performs never falls back.

## Model

| member | source | states |
|---|---|---|
| `JsNumbers.ToInt32` | components/DirectionsButton.js:58 | the 32-bit conversion behind `<<` and `\|`: the result is a signed 32-bit integer congruent to the input modulo 2^32, and values already in range are unchanged |
| `JsNumbers.BitOrRange` | components/DirectionsButton.js:58 | the or of two bit patterns is at least each of them and at most their sum |
| `JsNumbers.BitOrBounded` | components/DirectionsButton.js:58 | the or of two n-bit patterns is an n-bit pattern |
| `JsNumbers.Or` | components/DirectionsButton.js:58 | `\|` yields a signed 32-bit integer whatever its operands |
| `JsNumbers.OrSmall` | components/DirectionsButton.js:58 | on non-negative int32 operands `\|` is the plain or of the two patterns, nothing wraps, and the result lies between the larger operand and the sum |
| `JsNumbers.ShiftLeft` | components/DirectionsButton.js:58 | `<<` yields a signed 32-bit integer whatever the shift count |
| `JsNumbers.ShiftLeftSmall` | components/DirectionsButton.js:58 | `x << shift` with a count below 32 and a product that stays below 2^31 is multiplication by 2^shift |
| `JsNumbers.LowFiveBits` | components/DirectionsButton.js:58 | `& 0x1f` gives the unique value in 0..31 congruent to its operand modulo 32, negative operands included |
| `JsNumbers.ShiftRightOne` | components/DirectionsButton.js:61 | `>> 1` is halving rounded toward minus infinity: the result r satisfies 2r <= x < 2r + 2 |
| `JsNumbers.BitNot` | components/DirectionsButton.js:61 | `~x` is the r with x + r = -1; for an int32 x it is an int32 whose 32-bit pattern is the complement of x's, the two unsigned patterns adding up to 2^32 - 1 |
| `JsNumbers.BitOrDisjoint` | components/DirectionsButton.js:58 | `\|` of a value below 2^n with a multiple of 2^n is their sum |
| `JsNumbers.OrShiftedChunk` | components/DirectionsButton.js:58 | `result \| (chunk << shift)` with `result` below 2^shift and shift + 5 at most 30 adds chunk * 2^shift, and the sum stays below 2^(shift+5) |
| `Polyline.ZigZagDecode` | components/DirectionsButton.js:61 | for a non-negative raw value r, the delta is non-negative exactly when r is even, and r is 2d for such a delta d, or -2d-1 for a negative one |
| `Polyline.ReadGroup` | components/DirectionsButton.js:55-60 | a group consumes at least one character, so the outer loop always advances |
| `Polyline.ReadGroupShape` | components/DirectionsButton.js:55-60 | every character of a group but the last carries the continuation bit 0x20 (after the offset 63), and the last one does not; past the end of the string no character continues; the value is a signed 32-bit integer |
| `Polyline.PastEndReadsAsTerminator` | components/DirectionsButton.js:56-60 | past the end of the string, `charCodeAt`'s NaN reads like the character `?` (code 63): chunk 0 with no continuation bit. A group cut off by the end of the string reads as if `?` followed it |
| `Polyline.ScanEnd` | components/DirectionsButton.js:54-71 | the outer loop, started at an index, stops at or past the end of the string and never before that index |
| `Polyline.ReadPair` | components/DirectionsButton.js:55-71 | one outer iteration reads a latitude group and then a longitude group, so it consumes at least two characters |
| `Polyline.Decode` | components/DirectionsButton.js:49-81 | the empty geometry decodes to no points and any other geometry to at least one; there is at most one point per two characters, rounded up |
| `Polyline.DecodeFromIsRunningSums` | components/DirectionsButton.js:54-77 | reading a pair of deltas and adding it to the accumulators, iteration by iteration, gives the running sums of the sequence of deltas the scan reads |
| `Polyline.RunningSumsArePrefixSums` | components/DirectionsButton.js:62-72 | point k of the running sums is the starting accumulator plus the first k + 1 deltas, for each axis |
| `Polyline.DecodeIsPrefixSums` | components/DirectionsButton.js:52-77 | with the accumulators starting at 0, there is one point per delta pair, and point k is the sum of the first k + 1 latitude deltas and the first k + 1 longitude deltas |
| `PolylineCodec.EncodeValue` | components/DirectionsButton.js:56-60 | the encoder writes at least one character for every value, so the decoder's group loop always has a character to read |
| `PolylineCodec.EncodeValuePrintable` | components/DirectionsButton.js:56-60 | every character of an encoded group lies in the printable range 63 to 126 that the decoder's offset expects, and exactly the characters before the last carry the continuation bit the decoder's loop tests |
| `PolylineCodec.ReadValue` | components/DirectionsButton.js:56-60 | the strict group reader: a group that is read ends inside the string and, with `count` chunks already taken, uses at most six minus `count` more, so at most six in all; an error names a position within the string |
| `PolylineCodec.DecodeStrict` | components/DirectionsButton.js:49-81 | a strict decoding that succeeds has at most one point per two characters |
| `PolylineCodec.ZigZagRoundTrip` | components/DirectionsButton.js:61 | zig-zag decoding inverts zig-zag encoding for every delta |
| `PolylineCodec.ZigZagFits` | components/DirectionsButton.js:56-60 | a delta below 2^29 in magnitude zig-zags into the 30 bits that six chunks hold |
| `PolylineCodec.ReadEncodedValue` | components/DirectionsButton.js:56-60 | a group written by the encoder reads back as the same value and ends exactly after its last character |
| `PolylineCodec.DecodeStrictEncoded` | components/DirectionsButton.js:49-81 | strict decoding of an encoding of in-range points that ends the string gives back exactly those points |
| `PolylineCodec.ReadGroupAgrees` | components/DirectionsButton.js:56-60 | wherever a group is complete and at most six chunks long, the loop's 32-bit `\|` and `<<` compute the little-endian sum of its chunks and stop where the strict reader stops |
| `PolylineCodec.ReadPairAgrees` | components/DirectionsButton.js:55-71 | where both groups of a pair read strictly, the outer iteration yields their zig-zag decoded values and the index after them |
| `PolylineCodec.DecodeFromAgrees` | components/DirectionsButton.js:54-77 | from any position, the decoder as written returns the strict decoder's points whenever the strict decoder succeeds |
| `PolylineCodec.DecodeAgrees` | components/DirectionsButton.js:49-81 | `decodePolyline` returns the strict decoder's points whenever the strict decoder succeeds |
| `PolylineCodec.StrictEndsAtEnd` | components/DirectionsButton.js:54-71 | wherever the strict decoder succeeds, the outer loop's last group ends exactly at the end of the string |
| `PolylineCodec.StrictRejectsPadding` | components/DirectionsButton.js:54-71 | from any position, where the outer loop reads past the end of the string the strict decoder fails |
| `PolylineCodec.StrictRejectsCutLine` | components/DirectionsButton.js:49-81 | a geometry on which `decodePolyline` reads past its end is rejected by the strict decoder |
| `PolylineCodec.RoundTrip` | components/DirectionsButton.js:49-81 | for points whose coordinates are below 2^28 units in magnitude, both the strict decoder and the decoder as written give back the points the standard encoder encoded |
| `PolylineExamples.CanonicalEncodes` | components/DirectionsButton.js:49-81 | the standard encoder writes `` _p~iF~ps\|U_ulLnnqC_mqNvxq`@ `` for (38.5, -120.2), (40.7, -120.95), (43.252, -126.453) |
| `PolylineExamples.CanonicalDecodes` | components/DirectionsButton.js:49-81 | `` _p~iF~ps\|U_ulLnnqC_mqNvxq`@ `` decodes to (3850000, -12020000), (4070000, -12095000), (4325200, -12645300), strictly and as written |
| `PolylineExamples.TruncatedLineDecodes` | components/DirectionsButton.js:54-77 | the line `_p~iF`, cut after its first latitude group, still decodes to one point, with its longitude delta read as 0 |
| `PolylineExamples.TruncatedLineFails` | components/DirectionsButton.js:66-70 | the strict decoder reports the same line as truncated at index 5 |
| `PolylineExamples.CutGroupValue` | components/DirectionsButton.js:56-60 | the latitude group `_p~i`, cut before its last character, still ends and reads as 359968, the value of its four chunks 0, 17, 31 and 10 |
| `PolylineExamples.CutInsideGroupDecodes` | components/DirectionsButton.js:54-77 | the line `_p~i`, cut inside its first group, decodes to one point at latitude 179984 (1.79984 degrees) where the complete group gives 3850000, with a longitude delta of 0 |
| `PolylineExamples.CutInsideGroupFails` | components/DirectionsButton.js:56-60 | the strict decoder reports the same line as truncated at index 4 |
| `Directions.RequestFor` | components/DirectionsButton.js:23-26 | the request body holds two `[longitude, latitude]` pairs, origin first, destination second |
| `Directions.GetDirections` | components/DirectionsButton.js:10-47 | no request without both ends, and then the alert is "both must be set", the route is unchanged and loading is never set. Otherwise the request carries both ends and loading goes true and then false. The route changes only when the response has a route, and then it is the decoding as written of the first route's geometry, malformed or not. There is no alert exactly when a route was received. A failed request raises "failed to fetch" and an empty route list "no directions found" |
| `Directions.LoadingEndsOff` | components/DirectionsButton.js:16-46 | the button's `loading` flag is false after every outcome |
| `Directions.AlternatesIgnored` | components/DirectionsButton.js:36-38 | routes after the first change nothing |
| `Directions.FailureKeepsRoute` | components/DirectionsButton.js:36-43 | a failed request or an empty route list leaves the stored route unchanged |
| `Directions.StoresEncodedRoute` | components/DirectionsButton.js:36-38 | when the first route's geometry is the encoding of in-range points, those points become the route, with no alert |
| `Directions.StoresStrictDecoding` | components/DirectionsButton.js:36-38 | the stored route equals the strict decoding of the first geometry whenever that succeeds |
| `Search.TrimStart` | components/SearchBar.js:11 | the leading-whitespace removal of `trim`: a suffix of the input, everything removed is whitespace, and the result does not start with whitespace |
| `Search.TrimEnd` | components/SearchBar.js:11 | the trailing-whitespace removal of `trim`: a prefix of the input, everything removed is whitespace, and the result does not end with whitespace |
| `Search.Trim` | components/SearchBar.js:11 | `trim` returns a slice of the query with only whitespace cut from its two ends, and a non-empty result neither starts nor ends with whitespace |
| `Search.TrimEmptyIffBlank` | components/SearchBar.js:11-14 | a query trims to the empty (falsy) string exactly when every character is whitespace |
| `Search.TrimIdempotent` | components/SearchBar.js:11 | trimming twice is trimming once |
| `Search.HandleSearch` | components/SearchBar.js:10-37 | a query is refused, with no request and no loading writes, exactly when it is all whitespace. Otherwise the untrimmed query is sent with limit 1 and loading goes true and then false. The destination becomes the first result exactly when the list is non-empty. An empty list raises "no results" and a failed request "failed to fetch", and both leave the destination unchanged |
| `Search.DestinationNeverCleared` | components/SearchBar.js:23-33 | a search never clears a set destination |
| `Search.SearchAlternatesIgnored` | components/SearchBar.js:23-28 | results after the first change nothing |
| `Search.PaddingKeepsRefusal` | components/SearchBar.js:11-14 | whitespace around a query does not change whether it is refused |
| `App.Startup` | App.js:18-42 | `loadingLocation` is false after every outcome; destination and route are untouched. Denied permission sets the permission error. A fetched position becomes both `location` and `previousLocation`. Otherwise `previousLocation` is unchanged, and a captured previous reading is used without setting an error. Without one, the "unable to fetch" error is set, whether the permission request or the position fetch threw. Location changes only on a fetch or a fallback |
| `App.DeniedSkipsFetch` | App.js:21-26 | when permission is not granted the position is never fetched, location and previous stay as they were, and only the error and loading flag change |
| `App.FallbackNeverTaken` | App.js:10-42 | in the startup the app performs, whose closure sees the first render's `null`, the fallback never happens, and there is no error exactly when permission was granted and a position fetched |
| `App.ScreenOf` | App.js:68-107 | the loading screen exactly while loading; then the error screen exactly when an error is set; otherwise the map, with the directions button exactly when a destination is set |
| `App.ScreenAfterStartup` | App.js:14-86 | the first render shows the loading screen; after startup the map is shown exactly when a position was fetched, it then has a location and no directions button; a denied permission shows the permission error; every other failure, a thrown permission request included, shows the "unable to fetch" error |
| `App.RecenterOnUser` | App.js:44-55 | the map animates, centred on the current location, exactly when the map is ready and a location is known; otherwise an alert is raised |
| `App.RecenterOnSearch` | App.js:57-66 | the map animates, centred on the destination, exactly when the map is ready and a destination is set; otherwise nothing happens |
| `App.RecenterSpan` | App.js:44-66 | both recenters show a region of 0.01 degree latitude and longitude span around their own target |
| `App.SelectDestinationAsWritten` | App.js:96-99 | the search callback as written stores the new destination, but it animates the map only when the previous destination was set |
| `App.StaleRecenter` | App.js:57-66 | as written, the first search never moves the map, and a later one centres it on the old destination rather than the new one |
| `App.SelectDestination` | App.js:96-99 | the corrected callback stores the new destination and animates the map whenever the map is ready |
| `App.SelectDestinationRecenters` | App.js:96-99 | the corrected callback centres the map on the new destination, and stores the same state as the callback as written |
| `App.Step` | App.js:86-115 | on the loading and error screens, which render no search bar or buttons, an action changes nothing. A search result goes through the search bar's callback as written. A user action never touches the location, previous location, loading flag or error; only a directions press with a destination set changes the route; only a search changes the destination |
| `App.StepKeepsConsistent` | App.js:86-107 | one action keeps a route tied to a destination and keeps a location on the map screen |
| `App.RunKeepsConsistent` | App.js:86-107 | any sequence of actions keeps the state consistent |
| `App.SessionConsistent` | App.js:10-107 | from startup on, whatever the user does, a non-empty route is only held with a destination, and the map screen always has a location |
| `App.DirectionsNeverMissEndpoints` | App.js:101-107 | in any session, a press of the rendered directions button never raises the "both locations must be set" alert |

## Left out

- Floating point: the decoder's division by 1e5 and the search's
  `parseFloat` of the result's `lat` and `lon`. Coordinates are integers in
  1e-5 degree units, and a geocoder result arrives as a position already
  parsed. A string that `parseFloat` turns into NaN is not modelled.
- Network I/O: the axios calls, their URLs and headers, the API key, and
  `encodeURIComponent`. The response each service would give is a parameter.
  The request is the data it carries: the query and its limit, or the two
  coordinate pairs.
- Responses of an unexpected shape:
  - No `routes`, or a first route whose `geometry` is `null`, `undefined` or a
    non-empty array, makes the JavaScript throw inside the `try`. The catch
    then raises the "failed to fetch" alert. The model folds this into
    `RequestFailed`.
  - A `geometry` that is an object, a number or an empty array has no
    length, or a length of 0. The loop never runs, `decodePolyline` returns
    no points, and the route is cleared with no alert. The model covers
    this as a route whose geometry is the empty string.
- expo-location: the permission prompt and the position fetch are parameters
  that either return a value or throw.
- Rendering: JSX, styles, icons, the activity indicators, alert wording,
  components/MapComponent.js, and the camera animation itself. A recenter is
  represented by the region it would animate to.
- Asynchrony: each handler is one atomic step. Its `loading` writes are
  listed in order. Overlapping searches or direction requests, and the
  last-writer-wins races between them, are not modelled.
- Polyline.Decode is modelled as recursive functions whose two levels mirror
  the two loops. There is no loop-shaped method version.
- PolylineCodec.RoundTrip: requires every coordinate below 2^28 units
  (about 2684 degrees) in magnitude. The bound comes from the strict
  reader's limit of six chunks per group. The JavaScript loop itself stays
  exact until a zig-zagged delta reaches 2^31, so coordinates below 2^29
  units would also decode as written. No property is stated past 2^28.
- Search.Trim: works on Dafny characters, which are Unicode scalar values,
  where JavaScript works on UTF-16 code units. Every character `trim` removes
  lies in the Basic Multilingual Plane, so the two agree on which characters
  are removed.

## Findings

| source | as written | input that shows it | evidently intended | confidence | as-written member | corrected member |
|---|---|---|---|---|---|---|
| App.js:96-99 | the search bar's callback stores the new destination and then calls `recenterMapOnSearch`, which reads the `searchedLocation` captured by the render that created the callback, not the value just stored | the first search with the map ready: the destination was `null`, so the map does not move; any later search centres the map on the previous result | the map recenters on the place just found | medium (follows React's closure semantics); not executed | `App.SelectDestinationAsWritten` | `App.SelectDestination` |

=== FILE: app.dfy ===
/**
 * The app component (App.js): the state it holds, the location effect run
 * once at startup, the screen each render shows, the two recenter actions,
 * and the sequence of user actions that follow.
 *
 * The platform's permission prompt and position fetch are parameters: what
 * each would return (or that it would throw) is passed in. The map view is
 * represented only by whether its reference is set (`mapReady`) and by the
 * region a recenter would animate it to.
 */
module App {
  import opened Wrappers
  import opened Geo
  import Directions
  import Search

  /** The two startup failures the error screen can show. */
  datatype StartupError = PermissionDenied | LocationUnavailable

  /** The app's state variables. */
  datatype AppState = AppState(
    location: Option<Reading>,
    previous: Option<Reading>,
    destination: Option<GeoPoint>,
    route: seq<GeoPoint>,
    loadingLocation: bool,
    error: Option<StartupError>)

  /** The state of the first render. */
  const InitialState: AppState := AppState(None, None, None, [], true, None)

  // ----- startup -----

  /** What the permission request resolves to, or that it throws. */
  datatype PermissionStatus = Granted | NotGranted | PermissionThrew

  /** What the position fetch resolves to, or that it throws. */
  datatype PositionFetch = Position(reading: Reading) | PositionThrew

  /** The state after the startup effect, and whether it raised the "previous location" notice. */
  datatype StartupOutcome = StartupOutcome(state: AppState, usedPrevious: bool)

  /**
   * The startup effect run on `s`. `closurePrevious` is the value of
   * `previousLocation` the effect's closure captured, which is the value in
   * the render that scheduled it; `fetch` is consulted only once permission
   * is granted.
   */
  function Startup(s: AppState, closurePrevious: Option<Reading>,
                   permission: PermissionStatus, fetch: PositionFetch): (o: StartupOutcome)
    ensures !o.state.loadingLocation
    ensures o.state.destination == s.destination && o.state.route == s.route
    ensures o.state.error.None? ==> o.state.location.Some?
    ensures permission == NotGranted ==> o.state.error == Some(PermissionDenied)
    ensures s.error.None? ==> (o.state.error.None? <==> (permission == Granted && fetch.Position?) || o.usedPrevious)
    ensures (permission == Granted && fetch.Position?)
        ==> o.state.location == o.state.previous == Some(fetch.reading) && o.state.error == s.error
    ensures !(permission == Granted && fetch.Position?) ==> o.state.previous == s.previous
    ensures o.usedPrevious <==> permission != NotGranted && !(permission == Granted && fetch.Position?)
                                && closurePrevious.Some?
    ensures o.usedPrevious ==> o.state.location == closurePrevious && o.state.error == s.error
    ensures permission != NotGranted && !(permission == Granted && fetch.Position?) && closurePrevious.None?
        ==> o.state.error == Some(LocationUnavailable)
    ensures o.state.location != s.location ==> (permission == Granted && fetch.Position?) || o.usedPrevious
  {
    var done := s.(loadingLocation := false);
    if permission == NotGranted then
      StartupOutcome(done.(error := Some(PermissionDenied)), false)
    else if permission == Granted && fetch.Position? then
      StartupOutcome(done.(location := Some(fetch.reading), previous := Some(fetch.reading)), false)
    else if closurePrevious.Some? then
      StartupOutcome(done.(location := closurePrevious), true)
    else
      StartupOutcome(done.(error := Some(LocationUnavailable)), false)
  }

  /** A refused permission ends the effect before the position is fetched. */
  lemma DeniedSkipsFetch(s: AppState, closurePrevious: Option<Reading>, fetch1: PositionFetch, fetch2: PositionFetch)
    ensures Startup(s, closurePrevious, NotGranted, fetch1) == Startup(s, closurePrevious, NotGranted, fetch2)
    ensures Startup(s, closurePrevious, NotGranted, fetch1).state
         == s.(loadingLocation := false, error := Some(PermissionDenied))
  {
  }

  /** The startup the app actually performs: on the first render's state and closure. */
  function FirstStartup(permission: PermissionStatus, fetch: PositionFetch): StartupOutcome
  {
    Startup(InitialState, InitialState.previous, permission, fetch)
  }

  /**
   * The fallback to a previous reading can never be taken: the effect runs
   * once, and the closure it runs in sees the first render's `null`.
   */
  lemma FallbackNeverTaken(permission: PermissionStatus, fetch: PositionFetch)
    ensures !FirstStartup(permission, fetch).usedPrevious
    ensures var s := FirstStartup(permission, fetch).state;
            s.error.None? <==> permission == Granted && fetch.Position?
  {
  }

  // ----- rendering -----

  /** Which of the three screens a render returns. */
  datatype Screen = LoadingScreen | ErrorScreen(error: StartupError) | MapScreen(directionsButton: bool)

  /** The screen for state `s`: loading first, then error, then the map. */
  function ScreenOf(s: AppState): (v: Screen)
    ensures v == LoadingScreen <==> s.loadingLocation
    ensures v.ErrorScreen? <==> !s.loadingLocation && s.error.Some?
    ensures v.ErrorScreen? ==> v.error == s.error.value
    ensures v.MapScreen? ==> (v.directionsButton <==> s.destination.Some?)
  {
    if s.loadingLocation then LoadingScreen
    else if s.error.Some? then ErrorScreen(s.error.value)
    else MapScreen(s.destination.Some?)
  }

  /**
   * The first render shows the loading screen; after startup the app shows
   * the map exactly when permission was granted and a position was fetched,
   * and the map screen always has a current location.
   */
  lemma ScreenAfterStartup(permission: PermissionStatus, fetch: PositionFetch)
    ensures ScreenOf(InitialState) == LoadingScreen
    ensures var s := FirstStartup(permission, fetch).state;
            (ScreenOf(s).MapScreen? <==> permission == Granted && fetch.Position?)
            && (ScreenOf(s).MapScreen? ==> s.location.Some? && !ScreenOf(s).directionsButton)
            && (permission == NotGranted ==> ScreenOf(s) == ErrorScreen(PermissionDenied))
            && (permission != NotGranted && !(permission == Granted && fetch.Position?)
                ==> ScreenOf(s) == ErrorScreen(LocationUnavailable))
  {
    FallbackNeverTaken(permission, fetch);
  }

  // ----- recentering -----

  /** Half a hundredth of a degree either way: the 0.01 deltas, in 1e-5 degree units. */
  const RegionDelta: int := 1000

  /** A region the map can be animated to. */
  datatype Region = Region(center: GeoPoint, latitudeDelta: int, longitudeDelta: int)

  /** What a recenter does: animate the map, raise an alert, or nothing. */
  datatype Recenter = Animate(region: Region) | RecenterAlert | NoRecenter

  /** The region shown around `p`. */
  function RegionAround(p: GeoPoint): Region
  {
    Region(p, RegionDelta, RegionDelta)
  }

  /** The "my location" button. */
  function RecenterOnUser(mapReady: bool, location: Option<Reading>): (r: Recenter)
    ensures r.Animate? <==> mapReady && location.Some?
    ensures r.Animate? ==> r.region.center == location.value.coords
    ensures !r.Animate? ==> r == RecenterAlert
  {
    if mapReady && location.Some? then Animate(RegionAround(location.value.coords))
    else RecenterAlert
  }

  /** Recentering on the searched destination; silent when it cannot. */
  function RecenterOnSearch(mapReady: bool, destination: Option<GeoPoint>): (r: Recenter)
    ensures r.Animate? <==> mapReady && destination.Some?
    ensures r.Animate? ==> r.region.center == destination.value
    ensures !r.Animate? ==> r == NoRecenter
  {
    if mapReady && destination.Some? then Animate(RegionAround(destination.value))
    else NoRecenter
  }

  /** Both recenters zoom to the same 0.01-degree span, on their own target. */
  lemma RecenterSpan(mapReady: bool, location: Option<Reading>, destination: Option<GeoPoint>)
    requires mapReady && location.Some? && destination.Some?
    ensures RecenterOnUser(mapReady, location).region == RegionAround(location.value.coords)
    ensures RecenterOnSearch(mapReady, destination).region == RegionAround(destination.value)
    ensures RecenterOnUser(mapReady, location).region.latitudeDelta == RegionDelta
    ensures RecenterOnSearch(mapReady, destination).region.longitudeDelta == RegionDelta
  {
  }

  // ----- a search result arrives -----

  /**
   * The search bar's callback as written: store the new destination, then
   * recenter, but with the closure's `searchedLocation`, which is still the
   * destination of the render that created it.
   */
  function SelectDestinationAsWritten(s: AppState, mapReady: bool, newDestination: GeoPoint): (r: (AppState, Recenter))
    ensures r.0 == s.(destination := Some(newDestination))
    ensures r.1.Animate? <==> mapReady && s.destination.Some?
  {
    (s.(destination := Some(newDestination)), RecenterOnSearch(mapReady, s.destination))
  }

  /** The first search never moves the map, and a later one moves it to the old destination. */
  lemma StaleRecenter(s: AppState, newDestination: GeoPoint)
    ensures s.destination.None? ==> SelectDestinationAsWritten(s, true, newDestination).1 == NoRecenter
    ensures s.destination.Some? && s.destination.value != newDestination
        ==> SelectDestinationAsWritten(s, true, newDestination).1.region.center != newDestination
  {
  }

  /** The callback as evidently intended: recenter on the destination just stored. */
  function SelectDestination(s: AppState, mapReady: bool, newDestination: GeoPoint): (r: (AppState, Recenter))
    ensures r.0 == s.(destination := Some(newDestination))
    ensures r.1.Animate? <==> mapReady
  {
    var t := s.(destination := Some(newDestination));
    (t, RecenterOnSearch(mapReady, t.destination))
  }

  /**
   * With the map ready, the corrected callback always shows the new
   * destination; both versions store the same state.
   */
  lemma SelectDestinationRecenters(s: AppState, newDestination: GeoPoint)
    ensures SelectDestination(s, true, newDestination).1 == Animate(RegionAround(newDestination))
    ensures SelectDestination(s, true, newDestination).0 == SelectDestinationAsWritten(s, true, newDestination).0
  {
  }

  // ----- the session -----

  /** A user action on the map screen, with what the outside world answers. */
  datatype Event =
    | SearchSubmitted(query: string, places: Search.SearchResponse)
    | DirectionsPressed(routes: Directions.RouteResponse)
    | RecenterMePressed

  /**
   * The state after `e`. The search bar and the buttons exist only on the
   * map screen, so on the loading and error screens nothing happens. A
   * search result goes through the app's callback as written; a directions
   * press is possible only while the button is rendered, that is, while a
   * destination is set.
   */
  function Step(s: AppState, mapReady: bool, e: Event): (t: AppState)
    ensures !ScreenOf(s).MapScreen? ==> t == s
    ensures t.location == s.location && t.previous == s.previous
    ensures t.loadingLocation == s.loadingLocation && t.error == s.error
    ensures t.route != s.route ==> e.DirectionsPressed? && s.destination.Some?
    ensures t.destination != s.destination ==> e.SearchSubmitted?
  {
    if !ScreenOf(s).MapScreen? then s
    else
      match e
      case SearchSubmitted(query, places) =>
        var o := Search.HandleSearch(query, s.destination, places);
        if o.alert.None? then SelectDestinationAsWritten(s, mapReady, o.destination.value).0 else s
      case DirectionsPressed(routes) =>
        if ScreenOf(s).directionsButton then
          s.(route := Directions.GetDirections(s.location, s.destination, s.route, routes).route)
        else s
      case RecenterMePressed => s
  }

  /** The state after the events `es`, in order. */
  function Run(s: AppState, mapReady: bool, es: seq<Event>): AppState
    decreases |es|
  {
    if es == [] then s else Run(Step(s, mapReady, es[0]), mapReady, es[1..])
  }

  /**
   * What holds of every state of a session: a route is only ever held
   * together with a destination, and the map screen always has a current
   * location.
   */
  predicate Consistent(s: AppState)
  {
    (s.route != [] ==> s.destination.Some?)
    && (ScreenOf(s).MapScreen? ==> s.location.Some?)
  }

  /** One action keeps the state consistent. */
  lemma StepKeepsConsistent(s: AppState, mapReady: bool, e: Event)
    requires Consistent(s)
    ensures Consistent(Step(s, mapReady, e))
  {
    if e.SearchSubmitted? && s.destination.Some? {
      Search.DestinationNeverCleared(e.query, s.destination, e.places);
    }
  }

  /** Any sequence of actions keeps the state consistent. */
  lemma {:induction false} RunKeepsConsistent(s: AppState, mapReady: bool, es: seq<Event>)
    requires Consistent(s)
    ensures Consistent(Run(s, mapReady, es))
    decreases |es|
  {
    if es != [] {
      StepKeepsConsistent(s, mapReady, es[0]);
      RunKeepsConsistent(Step(s, mapReady, es[0]), mapReady, es[1..]);
    }
  }

  /** From startup on, whatever the user does, the state stays consistent. */
  lemma SessionConsistent(permission: PermissionStatus, fetch: PositionFetch, mapReady: bool, es: seq<Event>)
    ensures Consistent(Run(FirstStartup(permission, fetch).state, mapReady, es))
  {
    RunKeepsConsistent(FirstStartup(permission, fetch).state, mapReady, es);
  }

  /**
   * In any session, a press of the rendered directions button has both
   * ends: the "both locations must be set" alert cannot be raised from the
   * app.
   */
  lemma DirectionsNeverMissEndpoints(permission: PermissionStatus, fetch: PositionFetch, mapReady: bool,
                                     es: seq<Event>, routes: Directions.RouteResponse)
    ensures var s := Run(FirstStartup(permission, fetch).state, mapReady, es);
            ScreenOf(s).MapScreen? && ScreenOf(s).directionsButton
            ==> Directions.GetDirections(s.location, s.destination, s.route, routes).alert
                != Some(Directions.EndpointsMissing)
  {
    SessionConsistent(permission, fetch, mapReady, es);
  }
}

=== FILE: directions.dfy ===
/**
 * The directions button's `getDirections` handler
 * (components/DirectionsButton.js): check that both ends are known, post
 * the two coordinates to the routing service, and store the decoded
 * geometry of the first route returned.
 *
 * The routing service is a parameter: the response it would give to the
 * request is passed in, and the handler's effects (the request it sends,
 * the route it stores, the alert it raises, the values it writes to the
 * button's `loading` flag) are returned together.
 */
module Directions {
  import opened Wrappers
  import opened Geo
  import opened Polyline
  import opened PolylineCodec

  /** The routing service's answer: the encoded geometry of each route, or a thrown error. */
  datatype RouteResponse = Routes(geometries: seq<seq<int>>) | RequestFailed

  /** The three alerts the handler can raise. */
  datatype DirectionsAlert = EndpointsMissing | NoDirectionsFound | DirectionsFailed

  /** The request body: `coordinates` as `[longitude, latitude]` pairs, origin first. */
  datatype RouteRequest = RouteRequest(coordinates: seq<(int, int)>)

  /** What one press of the button does. */
  datatype DirectionsOutcome = DirectionsOutcome(
    request: Option<RouteRequest>,
    route: seq<GeoPoint>,
    alert: Option<DirectionsAlert>,
    loadingWrites: seq<bool>)

  /** The body posted for a trip from `origin` to `destination`. */
  function RequestFor(origin: GeoPoint, destination: GeoPoint): (r: RouteRequest)
    ensures |r.coordinates| == 2
    ensures r.coordinates[0].0 == origin.lon && r.coordinates[0].1 == origin.lat
    ensures r.coordinates[1].0 == destination.lon && r.coordinates[1].1 == destination.lat
  {
    RouteRequest([(origin.lon, origin.lat), (destination.lon, destination.lat)])
  }

  /**
   * One press of the button, with `route` the route currently stored and
   * `response` what the service answers if asked.
   */
  function GetDirections(location: Option<Reading>, destination: Option<GeoPoint>,
                         route: seq<GeoPoint>, response: RouteResponse): (o: DirectionsOutcome)
    ensures o.request.None? <==> location.None? || destination.None?
    ensures o.request.Some? ==> o.request.value == RequestFor(location.value.coords, destination.value)
    ensures o.request.None? ==> o.alert == Some(EndpointsMissing) && o.route == route && o.loadingWrites == []
    ensures o.request.Some? ==> o.loadingWrites == [true, false]
    ensures o.route != route ==> o.request.Some? && response.Routes? && |response.geometries| > 0
    ensures o.alert.None? <==> o.request.Some? && response.Routes? && |response.geometries| > 0
    ensures o.alert.None? ==> o.route == Decode(response.geometries[0])
    ensures o.request.Some? && response == RequestFailed ==> o.alert == Some(DirectionsFailed)
    ensures o.request.Some? && response == Routes([]) ==> o.alert == Some(NoDirectionsFound)
  {
    if location.None? || destination.None? then
      DirectionsOutcome(None, route, Some(EndpointsMissing), [])
    else
      var request := Some(RequestFor(location.value.coords, destination.value));
      match response
      case RequestFailed =>
        DirectionsOutcome(request, route, Some(DirectionsFailed), [true, false])
      case Routes(geometries) =>
        if |geometries| > 0 then
          DirectionsOutcome(request, Decode(geometries[0]), None, [true, false])
        else
          DirectionsOutcome(request, route, Some(NoDirectionsFound), [true, false])
  }

  /** The button's spinner is off again once the handler has finished. */
  lemma LoadingEndsOff(location: Option<Reading>, destination: Option<GeoPoint>,
                       route: seq<GeoPoint>, response: RouteResponse)
    ensures var w := GetDirections(location, destination, route, response).loadingWrites;
            w == [] || (w[0] && !w[|w| - 1])
  {
  }

  /** Only the first route counts: alternates after it change nothing. */
  lemma AlternatesIgnored(location: Option<Reading>, destination: Option<GeoPoint>,
                          route: seq<GeoPoint>, first: seq<int>, alternates: seq<seq<int>>)
    ensures GetDirections(location, destination, route, Routes([first] + alternates))
         == GetDirections(location, destination, route, Routes([first]))
  {
  }

  /** A failed request or an empty route list leaves the stored route as it was. */
  lemma FailureKeepsRoute(location: Option<Reading>, destination: Option<GeoPoint>,
                          route: seq<GeoPoint>, response: RouteResponse)
    requires response == RequestFailed || response == Routes([])
    ensures GetDirections(location, destination, route, response).route == route
  {
  }

  /**
   * When the service returns a well-formed encoding of `ps` first, the
   * stored route is exactly `ps`.
   */
  lemma StoresEncodedRoute(origin: Reading, destination: GeoPoint, route: seq<GeoPoint>,
                           ps: seq<GeoPoint>, alternates: seq<seq<int>>)
    requires Encodable(ps)
    ensures var o := GetDirections(Some(origin), Some(destination), route, Routes([Encode(ps)] + alternates));
            o.route == ps && o.alert.None?
  {
    RoundTrip(ps);
  }

  /**
   * Whatever the service returns first, the stored route is the strict
   * decoding of it whenever that succeeds.
   */
  lemma StoresStrictDecoding(origin: Reading, destination: GeoPoint, route: seq<GeoPoint>,
                             geometry: seq<int>, alternates: seq<seq<int>>)
    requires DecodeStrict(geometry).Success?
    ensures GetDirections(Some(origin), Some(destination), route, Routes([geometry] + alternates)).route
         == DecodeStrict(geometry).value
  {
    DecodeAgrees(geometry);
  }
}

=== FILE: geo.dfy ===
/**
 * Coordinates shared by the location, search, directions and polyline code.
 * Degrees are kept as integers in units of 1e-5 degree, the precision of the
 * encoded polyline format; the division by 1e5 the app performs to obtain
 * floating-point degrees is not modelled.
 */
module Geo {

  /** A `{ latitude, longitude }` object, in 1e-5 degree units. */
  datatype GeoPoint = GeoPoint(lat: int, lon: int)

  /** A position fix as the platform's location service delivers it. */
  datatype Reading = Reading(coords: GeoPoint, timestamp: int)
}

=== FILE: jsnumbers.dfy ===
/**
 * The JavaScript number operations the polyline decoder relies on, stated on
 * unbounded integers. JavaScript applies its bitwise operators to the 32-bit
 * two's-complement image of a number (ToInt32, section 7.1.6 of ECMA-262);
 * every operator below makes that truncation explicit.
 */
module JsNumbers {

  const TwoTo31: int := 0x8000_0000
  const TwoTo32: int := 0x1_0000_0000

  function Pow2(n: nat): (r: nat)
    ensures r >= 1
  {
    if n == 0 then 1 else 2 * Pow2(n - 1)
  }

  /** ToInt32 of an integral number: the int32 congruent to `x` modulo 2^32. */
  function ToInt32(x: int): (r: int)
    ensures -TwoTo31 <= r < TwoTo31
    ensures (x - r) % TwoTo32 == 0
    ensures -TwoTo31 <= x < TwoTo31 ==> r == x
  {
    var m := x % TwoTo32;
    if m >= TwoTo31 then m - TwoTo32 else m
  }

  /** Bitwise or of two non-negative bit patterns. */
  function BitOr(a: nat, b: nat): nat
    decreases a + b
  {
    if a == 0 then b
    else if b == 0 then a
    else (if a % 2 == 1 || b % 2 == 1 then 1 else 0) + 2 * BitOr(a / 2, b / 2)
  }

  /** `a | b`: or of the two 32-bit patterns, read back as an int32. */
  function Or(a: int, b: int): (r: int)
    ensures -TwoTo31 <= r < TwoTo31
  {
    ToInt32(BitOr(a % TwoTo32, b % TwoTo32))
  }

  /** `x << shift`: the shift count is taken modulo 32 and the result truncated to int32. */
  function ShiftLeft(x: int, shift: nat): (r: int)
    ensures -TwoTo31 <= r < TwoTo31
  {
    ToInt32(x * Pow2(shift % 32))
  }

  /** `x & 0x1f`: the low five bits of the two's-complement image of `x`. */
  function LowFiveBits(x: int): (r: int)
    ensures 0 <= r < 32
    ensures (x - r) % 32 == 0
  {
    x % 32
  }

  /** `x >> 1` on an int32: arithmetic shift, which rounds toward minus infinity. */
  function ShiftRightOne(x: int): (r: int)
    ensures 2 * r <= x < 2 * r + 2
  {
    x / 2
  }

  /**
   * `~x` on an int32: the int32 whose 32-bit pattern is the complement of
   * `x`'s, so that the two unsigned patterns add up to all ones.
   */
  function BitNot(x: int): (r: int)
    ensures x + r == -1
    ensures -TwoTo31 <= x < TwoTo31 ==> -TwoTo31 <= r < TwoTo31 && x % TwoTo32 + r % TwoTo32 == TwoTo32 - 1
  {
    -x - 1
  }

  /** The powers of two the 32-bit reasoning needs. */
  lemma Pow2Values()
    ensures Pow2(5) == 32 && Pow2(30) == 0x4000_0000 && Pow2(31) == TwoTo31 && Pow2(32) == TwoTo32
  {
    assert Pow2(1) == 2;
    assert Pow2(2) == 4;
    assert Pow2(3) == 8;
    assert Pow2(4) == 16;
    assert Pow2(5) == 32;
    Pow2Add(5, 5);
    Pow2Add(10, 10);
    Pow2Add(20, 10);
    assert Pow2(31) == 2 * Pow2(30);
    assert Pow2(32) == 2 * Pow2(31);
  }

  lemma {:induction false} Pow2Add(m: nat, n: nat)
    ensures Pow2(m + n) == Pow2(m) * Pow2(n)
    decreases m
  {
    if m > 0 {
      Pow2Add(m - 1, n);
    }
  }

  lemma {:induction false} Pow2Monotonic(m: nat, n: nat)
    requires m <= n
    ensures Pow2(m) <= Pow2(n)
    decreases n
  {
    if m < n {
      Pow2Monotonic(m, n - 1);
    }
  }

  /** Or-ing a pattern into bits above those already set is addition. */
  lemma {:induction false} BitOrDisjoint(a: nat, b: nat, n: nat)
    requires a < Pow2(n)
    ensures BitOr(a, b * Pow2(n)) == a + b * Pow2(n)
    decreases n
  {
    if n > 0 && a != 0 && b != 0 {
      var h := b * Pow2(n - 1);
      assert b * Pow2(n) == 2 * h;
      BitOrDisjoint(a / 2, b, n - 1);
    }
  }

  /** Five doublings multiply by 32. */
  lemma Pow2Step5(n: nat)
    ensures Pow2(n + 5) == 32 * Pow2(n)
  {
    assert Pow2(n + 5) == 2 * Pow2(n + 4);
    assert Pow2(n + 4) == 2 * Pow2(n + 3);
    assert Pow2(n + 3) == 2 * Pow2(n + 2);
    assert Pow2(n + 2) == 2 * Pow2(n + 1);
  }

  lemma ChunkTimes(chunk: int, p: nat)
    requires 0 <= chunk < 32
    ensures 0 <= chunk * p <= 31 * p
  {
    assert (31 - chunk) * p >= 0;
  }

  /** On values that already fit in 31 bits, ToInt32 and `% 2^32` change nothing. */
  lemma SmallIsInt32(x: int)
    requires 0 <= x < TwoTo31
    ensures x % TwoTo32 == x && ToInt32(x) == x
  {
  }

  /** `x << shift` that does not reach bit 31 is multiplication by 2^shift. */
  lemma ShiftLeftSmall(x: int, shift: nat, m: int)
    requires shift < 32 && m == x * Pow2(shift) && 0 <= m < TwoTo31
    ensures ShiftLeft(x, shift) == m
  {
    assert shift % 32 == shift;
    SmallIsInt32(m);
  }

  /** The or of two patterns is at least each of them and at most their sum. */
  lemma {:induction false} BitOrRange(a: nat, b: nat)
    ensures a <= BitOr(a, b) && b <= BitOr(a, b) && BitOr(a, b) <= a + b
    decreases a + b
  {
    if a != 0 && b != 0 {
      BitOrRange(a / 2, b / 2);
    }
  }

  /** Or-ing two patterns of `n` bits gives a pattern of `n` bits. */
  lemma {:induction false} BitOrBounded(a: nat, b: nat, n: nat)
    requires a < Pow2(n) && b < Pow2(n)
    ensures BitOr(a, b) < Pow2(n)
    decreases n
  {
    if n > 0 && a != 0 && b != 0 {
      BitOrBounded(a / 2, b / 2, n - 1);
    }
  }

  /** `a | b` on non-negative int32 values: the plain or of the patterns, which nothing wraps. */
  lemma OrSmall(a: int, b: int)
    requires 0 <= a < TwoTo31 && 0 <= b < TwoTo31
    ensures Or(a, b) == BitOr(a, b)
    ensures a <= Or(a, b) && b <= Or(a, b) && Or(a, b) <= a + b
  {
    SmallIsInt32(a);
    SmallIsInt32(b);
    Pow2Values();
    BitOrBounded(a, b, 31);
    BitOrRange(a, b);
    SmallIsInt32(BitOr(a, b));
  }

  /**
   * `result |= chunk << shift` for a 5-bit chunk placed above the bits
   * already set, all within 30 bits: the or is an addition and nothing wraps.
   */
  lemma OrShiftedChunk(result: int, chunk: int, shift: nat)
    requires shift + 5 <= 30
    requires 0 <= result < Pow2(shift) && 0 <= chunk < 32
    ensures Or(result, ShiftLeft(chunk, shift)) == result + chunk * Pow2(shift)
    ensures 0 <= Or(result, ShiftLeft(chunk, shift)) < Pow2(shift + 5)
  {
    var p := Pow2(shift);
    var m := chunk * p;
    Pow2Values();
    Pow2Step5(shift);
    Pow2Monotonic(shift + 5, 30);
    ChunkTimes(chunk, p);
    assert result + m < Pow2(shift + 5) <= 0x4000_0000;
    ShiftLeftSmall(chunk, shift, m);
    BitOrDisjoint(result, chunk, shift);
    OrSmall(result, m);
  }
}

=== FILE: polyline.dfy ===
/**
 * The route-geometry decoder exactly as the directions button implements it
 * (components/DirectionsButton.js, `decodePolyline`), over the UTF-16 code
 * units of the geometry string. Points are returned in 1e-5 degree units.
 *
 * Two behaviours of the JavaScript are kept on purpose:
 *  - reading past the end of the string yields NaN, whose low five bits are 0
 *    and which never compares >= 0x20, so a group cut short simply ends and a
 *    point is still emitted;
 *  - group values are assembled with 32-bit `<<` and `|`, which stay exact
 *    while the value is below 2^31.
 */
module Polyline {
  import opened Geo
  import opened JsNumbers

  /** Characters are offset by 63 so that every chunk is printable. */
  const Offset: int := 63
  /** Continuation bit: set in every chunk of a group except the last. */
  const Continue: int := 0x20

  /** The signed delta encoded by a raw group value (`result`). */
  function ZigZagDecode(result: int): (d: int)
    ensures result >= 0 ==> (d >= 0 <==> result % 2 == 0)
    ensures result >= 0 ==> result == (if d >= 0 then 2 * d else -2 * d - 1)
  {
    if result % 2 == 1 then BitNot(ShiftRightOne(result)) else ShiftRightOne(result)
  }

  /** Whether the character at `index` exists and carries the continuation bit. */
  predicate Continues(codes: seq<int>, index: int)
  {
    0 <= index < |codes| && codes[index] - Offset >= Continue
  }

  /**
   * One `do { ... } while (b >= 0x20)` loop: reads a group starting at
   * `index`, with `shift` and `result` as the loop variables, and returns the
   * group's raw value and the index after its last character.
   */
  function ReadGroup(codes: seq<int>, index: nat, shift: nat, result: int): (g: (int, nat))
    ensures index < g.1
    decreases |codes| - index
  {
    // Past the end, charCodeAt gives NaN: its `& 0x1f` is 0 and it is never >= 0x20.
    var chunk := if index < |codes| then LowFiveBits(codes[index] - Offset) else 0;
    var result' := Or(result, ShiftLeft(chunk, shift));
    if Continues(codes, index) then ReadGroup(codes, index + 1, shift + 5, result')
    else (result', index + 1)
  }

  /**
   * The extent of a group: every character it consumes but the last carries
   * the continuation bit, the last does not, and the value is an int32.
   */
  lemma {:induction false} ReadGroupShape(codes: seq<int>, index: nat, shift: nat, result: int)
    ensures var g := ReadGroup(codes, index, shift, result);
            (forall j :: index <= j < g.1 - 1 ==> Continues(codes, j))
            && !Continues(codes, g.1 - 1) && -TwoTo31 <= g.0 < TwoTo31
    decreases |codes| - index
  {
    var chunk := if index < |codes| then LowFiveBits(codes[index] - Offset) else 0;
    var result' := Or(result, ShiftLeft(chunk, shift));
    if Continues(codes, index) {
      ReadGroupShape(codes, index + 1, shift + 5, result');
    }
  }

  /**
   * Past the end of the string, `charCodeAt`'s NaN reads exactly like the
   * character `?` (code 63): a chunk of 0 that ends the group. So a group
   * cut off by the end of the string reads as if `?` followed it.
   */
  lemma {:induction false} PastEndReadsAsTerminator(codes: seq<int>, index: nat, shift: nat, result: int)
    requires index <= |codes|
    ensures ReadGroup(codes, index, shift, result) == ReadGroup(codes + [Offset], index, shift, result)
    decreases |codes| - index
  {
    var padded := codes + [Offset];
    if index < |codes| {
      assert padded[index] == codes[index];
      var chunk := LowFiveBits(codes[index] - Offset);
      var result' := Or(result, ShiftLeft(chunk, shift));
      if Continues(codes, index) {
        PastEndReadsAsTerminator(codes, index + 1, shift + 5, result');
      }
    } else {
      assert padded[index] == Offset && !Continues(padded, index);
    }
  }

  /**
   * The two groups one outer iteration reads: the latitude and longitude
   * deltas, and the index after the longitude group.
   */
  function ReadPair(codes: seq<int>, index: nat): (r: ((int, int), nat))
    ensures index + 2 <= r.1
  {
    var gLat := ReadGroup(codes, index, 0, 0);
    var gLon := ReadGroup(codes, gLat.1, 0, 0);
    ((ZigZagDecode(gLat.0), ZigZagDecode(gLon.0)), gLon.1)
  }

  /**
   * Where the outer `while (index < len)` loop started at `index` stops: at
   * the end of the string when its last group ended there, past it when
   * the last group had to read past the end.
   */
  function ScanEnd(codes: seq<int>, index: nat): (e: nat)
    ensures index <= e && |codes| <= e
    decreases |codes| - index
  {
    if index >= |codes| then index else ScanEnd(codes, ReadPair(codes, index).1)
  }

  /** The outer `while (index < len)` loop, from `index` with running `lat` and `lon`. */
  function DecodeFrom(codes: seq<int>, index: nat, lat: int, lon: int): (ps: seq<GeoPoint>)
    ensures ps == [] <==> index >= |codes|
    ensures index < |codes| ==> 2 * |ps| <= |codes| - index + 1
    decreases |codes| - index
  {
    if index >= |codes| then []
    else
      var r := ReadPair(codes, index);
      var p := GeoPoint(lat + r.0.0, lon + r.0.1);
      [p] + DecodeFrom(codes, r.1, p.lat, p.lon)
  }

  /**
   * `decodePolyline(geometry)`. The empty string decodes to no points, every
   * other string to at least one, and each point consumes at least two
   * characters (one latitude group, one longitude group).
   */
  function Decode(codes: seq<int>): (ps: seq<GeoPoint>)
    ensures ps == [] <==> codes == []
    ensures 2 * |ps| <= |codes| + 1
  {
    DecodeFrom(codes, 0, 0, 0)
  }

  /** The same scan as `DecodeFrom`, returning the (latitude, longitude) deltas it reads. */
  function DeltasFrom(codes: seq<int>, index: nat): seq<(int, int)>
    decreases |codes| - index
  {
    if index >= |codes| then []
    else
      var r := ReadPair(codes, index);
      [r.0] + DeltasFrom(codes, r.1)
  }

  /** Running sums of a delta sequence, from the given starting accumulators. */
  function RunningSums(ds: seq<(int, int)>, lat: int, lon: int): (ps: seq<GeoPoint>)
    ensures |ps| == |ds|
  {
    if ds == [] then []
    else
      var p := GeoPoint(lat + ds[0].0, lon + ds[0].1);
      [p] + RunningSums(ds[1..], p.lat, p.lon)
  }

  /** The sum of the latitude deltas. */
  function SumLat(ds: seq<(int, int)>): int
  {
    if ds == [] then 0 else ds[0].0 + SumLat(ds[1..])
  }

  /** The sum of the longitude deltas. */
  function SumLon(ds: seq<(int, int)>): int
  {
    if ds == [] then 0 else ds[0].1 + SumLon(ds[1..])
  }

  /**
   * Reading and accumulating interleaved, as the loop does, is the same as
   * reading every delta first and accumulating afterwards.
   */
  lemma {:induction false} DecodeFromIsRunningSums(codes: seq<int>, index: nat, lat: int, lon: int)
    ensures DecodeFrom(codes, index, lat, lon) == RunningSums(DeltasFrom(codes, index), lat, lon)
    decreases |codes| - index
  {
    if index < |codes| {
      var r := ReadPair(codes, index);
      var p := GeoPoint(lat + r.0.0, lon + r.0.1);
      var rest := DeltasFrom(codes, r.1);
      DecodeFromIsRunningSums(codes, r.1, p.lat, p.lon);
      assert DeltasFrom(codes, index) == [r.0] + rest;
      assert ([r.0] + rest)[1..] == rest;
      assert RunningSums([r.0] + rest, lat, lon) == [p] + RunningSums(rest, p.lat, p.lon);
    }
  }

  /** Point k of the running sums is the start plus the first k + 1 deltas. */
  lemma {:induction false} RunningSumsArePrefixSums(ds: seq<(int, int)>, lat: int, lon: int)
    ensures forall k :: 0 <= k < |ds| ==>
      RunningSums(ds, lat, lon)[k] == GeoPoint(lat + SumLat(ds[..k + 1]), lon + SumLon(ds[..k + 1]))
  {
    if ds != [] {
      var p := GeoPoint(lat + ds[0].0, lon + ds[0].1);
      RunningSumsArePrefixSums(ds[1..], p.lat, p.lon);
      forall k | 0 <= k < |ds|
        ensures RunningSums(ds, lat, lon)[k] == GeoPoint(lat + SumLat(ds[..k + 1]), lon + SumLon(ds[..k + 1]))
      {
        assert ds[..k + 1][1..] == ds[1..][..k];
      }
    }
  }

  /**
   * The accumulators start at 0 and only ever add deltas: point k of a
   * decoded polyline is the sum of the first k + 1 deltas the scan reads.
   */
  lemma DecodeIsPrefixSums(codes: seq<int>)
    ensures var ps, ds := Decode(codes), DeltasFrom(codes, 0);
      && |ps| == |ds|
      && forall k :: 0 <= k < |ps| ==> ps[k] == GeoPoint(SumLat(ds[..k + 1]), SumLon(ds[..k + 1]))
  {
    DecodeFromIsRunningSums(codes, 0, 0, 0);
    RunningSumsArePrefixSums(DeltasFrom(codes, 0), 0, 0);
  }
}

=== FILE: polyline_codec.dfy ===
/**
 * The Encoded Polyline Algorithm Format as a codec: the standard encoder, a
 * strict decoder that reports a group cut short or too long instead of
 * guessing, and the proofs that tie them to each other and to the decoder
 * the app actually runs (module Polyline).
 */
module PolylineCodec {
  import opened Wrappers
  import opened Geo
  import opened JsNumbers
  import opened Polyline

  /**
   * The most chunks the strict reader accepts in one group: six 5-bit
   * chunks hold 30 bits, so every value it reads stays well inside the
   * range where the app's 32-bit `<<` and `|` are exact.
   */
  const MaxChunks: nat := 6

  /** Why a geometry string is not a well-formed encoding. */
  datatype DecodeError =
    | Truncated(index: nat)  // the string ends inside a group
    | Overlong(index: nat)   // a group needs a seventh chunk, read at `index`

  /** The zig-zag map from signed deltas to raw group values. */
  function ZigZag(v: int): nat
  {
    if v < 0 then -2 * v - 1 else 2 * v
  }

  /** The characters of one group: 5-bit chunks, least significant first. */
  function EncodeValue(n: nat): (cs: seq<int>)
    ensures 1 <= |cs|
    decreases n
  {
    if n < Continue then [n + Offset]
    else [(n % Continue + Continue) + Offset] + EncodeValue(n / Continue)
  }

  /**
   * Every character of a group is printable, between `?` (63) and `~` (126),
   * and only the last one lacks the continuation bit.
   */
  lemma {:induction false} EncodeValuePrintable(n: nat)
    ensures forall i :: 0 <= i < |EncodeValue(n)| ==> Offset <= EncodeValue(n)[i] < Offset + 2 * Continue
    ensures forall i :: 0 <= i < |EncodeValue(n)| ==> (EncodeValue(n)[i] - Offset >= Continue <==> i < |EncodeValue(n)| - 1)
    decreases n
  {
    if n >= Continue {
      EncodeValuePrintable(n / Continue);
      var c := n % Continue + Continue + Offset;
      assert EncodeValue(n) == [c] + EncodeValue(n / Continue);
      forall i | 0 < i < |EncodeValue(n)|
        ensures EncodeValue(n)[i] == EncodeValue(n / Continue)[i - 1]
      {
      }
    }
  }

  /** The encoding of `ps` as deltas from the running (`lat`, `lon`). */
  function EncodeFrom(ps: seq<GeoPoint>, lat: int, lon: int): seq<int>
  {
    if ps == [] then []
    else
      EncodeValue(ZigZag(ps[0].lat - lat)) + EncodeValue(ZigZag(ps[0].lon - lon))
      + EncodeFrom(ps[1..], ps[0].lat, ps[0].lon)
  }

  /** The standard encoder, accumulators starting at 0. */
  function Encode(ps: seq<GeoPoint>): seq<int>
  {
    EncodeFrom(ps, 0, 0)
  }

  /**
   * A group read the strict way, `count` chunks already taken: the raw value
   * of the remaining chunks and the index after the group.
   */
  function ReadValue(codes: seq<int>, index: nat, count: nat): (r: Result<(nat, nat), DecodeError>)
    requires count <= MaxChunks
    ensures r.Success? ==> count < MaxChunks && index < r.value.1 <= |codes|
    ensures r.Success? ==> r.value.1 - index <= MaxChunks - count
    ensures r.Failure? ==> r.error.index <= |codes|
    decreases |codes| - index
  {
    if index >= |codes| then Failure(Truncated(|codes|))
    else if count == MaxChunks then Failure(Overlong(index))
    else
      var chunk := LowFiveBits(codes[index] - Offset);
      if Continues(codes, index) then
        var rest :- ReadValue(codes, index + 1, count + 1);
        Success((chunk + Continue * rest.0, rest.1))
      else Success((chunk, index + 1))
  }

  /** The strict decoder from `index`, with running `lat` and `lon`. */
  function DecodeStrictFrom(codes: seq<int>, index: nat, lat: int, lon: int): (r: Result<seq<GeoPoint>, DecodeError>)
    ensures r.Success? && index <= |codes| ==> 2 * |r.value| <= |codes| - index
    decreases |codes| - index
  {
    if index >= |codes| then Success([])
    else
      var gLat :- ReadValue(codes, index, 0);
      var gLon :- ReadValue(codes, gLat.1, 0);
      var p := GeoPoint(lat + ZigZagDecode(gLat.0), lon + ZigZagDecode(gLon.0));
      var rest :- DecodeStrictFrom(codes, gLon.1, p.lat, p.lon);
      Success([p] + rest)
  }

  /**
   * The decoder as the format intends it: every group complete and at most
   * six characters long, or an error naming where decoding stopped.
   */
  function DecodeStrict(codes: seq<int>): (r: Result<seq<GeoPoint>, DecodeError>)
    ensures r.Success? ==> 2 * |r.value| <= |codes|
  {
    DecodeStrictFrom(codes, 0, 0, 0)
  }

  // ----- zig-zag -----

  /** Zig-zag decoding inverts zig-zag encoding. */
  lemma ZigZagRoundTrip(v: int)
    ensures ZigZagDecode(ZigZag(v)) == v
  {
  }

  /** A delta below 2^29 in magnitude zig-zags into 30 bits. */
  lemma ZigZagFits(v: int)
    requires -0x2000_0000 <= v < 0x2000_0000
    ensures ZigZag(v) < Pow2(5 * MaxChunks)
  {
    Pow2Values();
  }

  // ----- strict decoding inverts encoding -----

  /** `codes` holds the characters `e` starting at `index`. */
  predicate HasAt(codes: seq<int>, index: nat, e: seq<int>)
  {
    index + |e| <= |codes| && codes[index..index + |e|] == e
  }

  /** Characters held back to back are held one after the other. */
  lemma HasAtSplit(codes: seq<int>, index: nat, a: seq<int>, b: seq<int>)
    requires HasAt(codes, index, a + b)
    ensures HasAt(codes, index, a) && HasAt(codes, index + |a|, b)
  {
    assert codes[index..index + |a|] == (a + b)[..|a|];
    assert codes[index + |a|..index + |a| + |b|] == (a + b)[|a|..];
  }

  /** A continued chunk followed by the rest of its group. */
  lemma ReadValueStep(codes: seq<int>, index: nat, count: nat, v: nat, next: nat)
    requires count + 1 < MaxChunks && index < |codes| && Continues(codes, index)
    requires ReadValue(codes, index + 1, count + 1) == Success((v, next))
    ensures ReadValue(codes, index, count)
         == Success((LowFiveBits(codes[index] - Offset) + Continue * v, next))
  {
  }

  /** The first character of an encoded group, and where the rest of the group sits. */
  lemma EncodedHead(codes: seq<int>, index: nat, n: nat)
    requires HasAt(codes, index, EncodeValue(n))
    ensures index < |codes|
    ensures codes[index] - Offset == if n < Continue then n else n % Continue + Continue
    ensures n < Continue ==> |EncodeValue(n)| == 1
    ensures n >= Continue ==> HasAt(codes, index + 1, EncodeValue(n / Continue))
                              && |EncodeValue(n)| == 1 + |EncodeValue(n / Continue)|
  {
    assert codes[index] == EncodeValue(n)[0];
    if n >= Continue {
      HasAtSplit(codes, index, [n % Continue + Continue + Offset], EncodeValue(n / Continue));
    }
  }

  /** The last chunk of a group. */
  lemma ReadValueLast(codes: seq<int>, index: nat, count: nat)
    requires count < MaxChunks && index < |codes| && !Continues(codes, index)
    ensures ReadValue(codes, index, count) == Success((LowFiveBits(codes[index] - Offset), index + 1))
  {
  }

  /** A value needing another chunk has room for it, and its rest fits the chunks left. */
  lemma RemainingFits(n: nat, count: nat)
    requires count < MaxChunks && n < Pow2(5 * (MaxChunks - count)) && n >= Continue
    ensures count + 1 < MaxChunks && n / Continue < Pow2(5 * (MaxChunks - count - 1))
  {
    Pow2Values();
    Pow2Step5(5 * (MaxChunks - count - 1));
    assert 5 * (MaxChunks - count) == 5 * (MaxChunks - count - 1) + 5;
  }

  /** A group written by `EncodeValue` reads back as the same value. */
  lemma {:induction false} ReadEncodedValue(codes: seq<int>, index: nat, n: nat, count: nat, next: nat)
    requires count < MaxChunks
    requires n < Pow2(5 * (MaxChunks - count))
    requires HasAt(codes, index, EncodeValue(n)) && next == index + |EncodeValue(n)|
    ensures ReadValue(codes, index, count) == Success((n, next))
    decreases n
  {
    EncodedHead(codes, index, n);
    if n >= Continue {
      assert count + 1 < MaxChunks && ReadValue(codes, index + 1, count + 1) == Success((n / Continue, next)) by {
        RemainingFits(n, count);
        ReadEncodedValue(codes, index + 1, n / Continue, count + 1, next);
      }
      assert LowFiveBits(codes[index] - Offset) + Continue * (n / Continue) == n;
      ReadValueStep(codes, index, count, n / Continue, next);
    } else {
      assert LowFiveBits(codes[index] - Offset) == n;
      ReadValueLast(codes, index, count);
    }
  }

  /** One step of the strict decoder: two complete groups, then the rest. */
  lemma DecodeStrictStep(codes: seq<int>, index: nat, lat: int, lon: int, zLat: nat, zLon: nat,
                         i1: nat, i2: nat, p: GeoPoint, rest: seq<GeoPoint>)
    requires index < |codes|
    requires ReadValue(codes, index, 0) == Success((zLat, i1))
    requires ReadValue(codes, i1, 0) == Success((zLon, i2))
    requires p == GeoPoint(lat + ZigZagDecode(zLat), lon + ZigZagDecode(zLon))
    requires DecodeStrictFrom(codes, i2, p.lat, p.lon) == Success(rest)
    ensures DecodeStrictFrom(codes, index, lat, lon) == Success([p] + rest)
  {
  }

  /** The two groups written for one point, at `index` and `i1`, read back, ending at `i2`. */
  lemma ReadEncodedPair(codes: seq<int>, index: nat, i1: nat, i2: nat, zLat: nat, zLon: nat)
    requires zLat < Pow2(5 * MaxChunks) && zLon < Pow2(5 * MaxChunks)
    requires i1 == index + |EncodeValue(zLat)| && i2 == i1 + |EncodeValue(zLon)|
    requires HasAt(codes, index, EncodeValue(zLat)) && HasAt(codes, i1, EncodeValue(zLon))
    ensures index < |codes|
    ensures ReadValue(codes, index, 0) == Success((zLat, i1))
    ensures ReadValue(codes, i1, 0) == Success((zLon, i2))
  {
    ReadEncodedValue(codes, index, zLat, 0, i1);
    ReadEncodedValue(codes, i1, zLon, 0, i2);
  }

  /**
   * The groups of point `p`, encoded after (`lat`, `lon`) at `index` and
   * `i1`, read back as its deltas, ending at `i2`.
   */
  lemma EncodedPointReads(codes: seq<int>, index: nat, i1: nat, i2: nat, lat: int, lon: int,
                          p: GeoPoint, zLat: nat, zLon: nat)
    requires InRange(lat) && InRange(lon) && InRange(p.lat) && InRange(p.lon)
    requires zLat == ZigZag(p.lat - lat) && zLon == ZigZag(p.lon - lon)
    requires i1 == index + |EncodeValue(zLat)| && i2 == i1 + |EncodeValue(zLon)|
    requires HasAt(codes, index, EncodeValue(zLat)) && HasAt(codes, i1, EncodeValue(zLon))
    ensures index < |codes|
    ensures ReadValue(codes, index, 0) == Success((zLat, i1))
    ensures ReadValue(codes, i1, 0) == Success((zLon, i2))
    ensures p == GeoPoint(lat + ZigZagDecode(zLat), lon + ZigZagDecode(zLon))
  {
    ZigZagFits(p.lat - lat);
    ZigZagFits(p.lon - lon);
    ReadEncodedPair(codes, index, i1, i2, zLat, zLon);
    ZigZagRoundTrip(p.lat - lat);
    ZigZagRoundTrip(p.lon - lon);
  }

  /** The point `p`, encoded after (`lat`, `lon`) and followed by a line that decodes to `rest`, decodes first. */
  lemma DecodeStrictEncodedPoint(codes: seq<int>, index: nat, i1: nat, i2: nat, lat: int, lon: int,
                                 p: GeoPoint, zLat: nat, zLon: nat, rest: seq<GeoPoint>)
    requires InRange(lat) && InRange(lon) && InRange(p.lat) && InRange(p.lon)
    requires zLat == ZigZag(p.lat - lat) && zLon == ZigZag(p.lon - lon)
    requires i1 == index + |EncodeValue(zLat)| && i2 == i1 + |EncodeValue(zLon)|
    requires HasAt(codes, index, EncodeValue(zLat)) && HasAt(codes, i1, EncodeValue(zLon))
    requires DecodeStrictFrom(codes, i2, p.lat, p.lon) == Success(rest)
    ensures DecodeStrictFrom(codes, index, lat, lon) == Success([p] + rest)
  {
    EncodedPointReads(codes, index, i1, i2, lat, lon, p, zLat, zLon);
    DecodeStrictStep(codes, index, lat, lon, zLat, zLon, i1, i2, p, rest);
  }

  /** The encoding of a non-empty line: the first point's two groups, then the rest. */
  lemma EncodeFromHead(ps: seq<GeoPoint>, lat: int, lon: int, zLat: nat, zLon: nat)
    requires ps != [] && zLat == ZigZag(ps[0].lat - lat) && zLon == ZigZag(ps[0].lon - lon)
    ensures EncodeFrom(ps, lat, lon) == EncodeValue(zLat) + (EncodeValue(zLon) + EncodeFrom(ps[1..], ps[0].lat, ps[0].lon))
  {
  }

  /** Three runs of characters held back to back, at `index`, `i1` and `i2`. */
  lemma HasAtSplit3(codes: seq<int>, index: nat, i1: nat, i2: nat, a: seq<int>, b: seq<int>, c: seq<int>)
    requires HasAt(codes, index, a + (b + c)) && i1 == index + |a| && i2 == i1 + |b|
    ensures HasAt(codes, index, a) && HasAt(codes, i1, b) && HasAt(codes, i2, c)
  {
    HasAtSplit(codes, index, a, b + c);
    HasAtSplit(codes, i1, b, c);
  }

  /** Where the first point's groups and the remaining encoding sit. */
  lemma EncodeFromSplit(codes: seq<int>, index: nat, ps: seq<GeoPoint>, lat: int, lon: int,
                        zLat: nat, zLon: nat, i1: nat, i2: nat)
    requires ps != [] && HasAt(codes, index, EncodeFrom(ps, lat, lon))
    requires zLat == ZigZag(ps[0].lat - lat) && zLon == ZigZag(ps[0].lon - lon)
    requires i1 == index + |EncodeValue(zLat)| && i2 == i1 + |EncodeValue(zLon)|
    ensures HasAt(codes, index, EncodeValue(zLat)) && HasAt(codes, i1, EncodeValue(zLon))
    ensures HasAt(codes, i2, EncodeFrom(ps[1..], ps[0].lat, ps[0].lon))
    ensures index + |EncodeFrom(ps, lat, lon)| == i2 + |EncodeFrom(ps[1..], ps[0].lat, ps[0].lon)|
  {
    EncodeFromHead(ps, lat, lon, zLat, zLon);
    HasAtSplit3(codes, index, i1, i2, EncodeValue(zLat), EncodeValue(zLon), EncodeFrom(ps[1..], ps[0].lat, ps[0].lon));
  }

  /** Strict decoding of an encoding that ends `codes` gives back the encoded points. */
  lemma {:induction false} DecodeStrictEncoded(codes: seq<int>, index: nat, ps: seq<GeoPoint>, lat: int, lon: int)
    requires InRange(lat) && InRange(lon) && Encodable(ps)
    requires HasAt(codes, index, EncodeFrom(ps, lat, lon))
    requires index + |EncodeFrom(ps, lat, lon)| == |codes|
    ensures DecodeStrictFrom(codes, index, lat, lon) == Success(ps)
    decreases ps
  {
    if ps != [] {
      var p, rest := ps[0], ps[1..];
      assert InRange(p.lat) && InRange(p.lon) && Encodable(rest);
      var zLat, zLon := ZigZag(p.lat - lat), ZigZag(p.lon - lon);
      var i1 := index + |EncodeValue(zLat)|;
      var i2 := i1 + |EncodeValue(zLon)|;
      EncodeFromSplit(codes, index, ps, lat, lon, zLat, zLon, i1, i2);
      DecodeStrictEncoded(codes, i2, rest, p.lat, p.lon);
      DecodeStrictEncodedPoint(codes, index, i1, i2, lat, lon, p, zLat, zLon, rest);
      assert ps == [p] + rest;
    }
  }

  /** A coordinate the codec round-trips: below 2^28 in magnitude (about 2684 degrees). */
  predicate InRange(x: int)
  {
    -0x1000_0000 < x < 0x1000_0000
  }

  predicate Encodable(ps: seq<GeoPoint>)
  {
    forall i :: 0 <= i < |ps| ==> InRange(ps[i].lat) && InRange(ps[i].lon)
  }

  // ----- the app's decoder agrees with the strict one -----

  /**
   * Where the strict reader succeeds, the app's 32-bit group loop computes
   * the same value: or-ing each chunk in is addition, and nothing wraps.
   */
  lemma {:induction false} ReadGroupAgrees(codes: seq<int>, index: nat, count: nat, shift: nat, result: int)
    requires count <= MaxChunks && shift == 5 * count
    requires ReadValue(codes, index, count).Success?
    requires 0 <= result < Pow2(shift)
    ensures var v := ReadValue(codes, index, count).value;
      ReadGroup(codes, index, shift, result) == (result + v.0 * Pow2(shift), v.1)
    decreases |codes| - index
  {
    var p := Pow2(shift);
    var chunk := LowFiveBits(codes[index] - Offset);
    var result' := Or(result, ShiftLeft(chunk, shift));
    OrShiftedChunk(result, chunk, shift);
    if Continues(codes, index) {
      assert ReadValue(codes, index + 1, count + 1).Success?;
      var rest := ReadValue(codes, index + 1, count + 1).value;
      var q := Pow2(shift + 5);
      assert ReadValue(codes, index, count).value == (chunk + Continue * rest.0, rest.1);
      assert ReadGroup(codes, index, shift, result) == (result' + rest.0 * q, rest.1) by {
        assert ReadGroup(codes, index, shift, result) == ReadGroup(codes, index + 1, shift + 5, result');
        ReadGroupAgrees(codes, index + 1, count + 1, shift + 5, result');
      }
      assert result' + rest.0 * q == result + (chunk + Continue * rest.0) * p by {
        Pow2Step5(shift);
        Regroup(chunk, rest.0, p, q);
      }
    } else {
      assert ReadValue(codes, index, count).value == (chunk, index + 1);
      assert ReadGroup(codes, index, shift, result) == (result', index + 1);
    }
  }

  /** Place value: a chunk plus 32 times the rest, scaled by 2^shift. */
  lemma Regroup(c: int, v: int, p: int, q: int)
    requires q == Continue * p
    ensures (c + Continue * v) * p == c * p + v * q
  {
  }

  /** A whole group, read both ways from its first character, gives the same value and end. */
  lemma GroupAgrees(codes: seq<int>, index: nat)
    requires ReadValue(codes, index, 0).Success?
    ensures ReadGroup(codes, index, 0, 0) == ReadValue(codes, index, 0).value
  {
    ReadGroupAgrees(codes, index, 0, 0, 0);
    assert Pow2(0) == 1;
  }

  /** The point-decoding step of the lenient decoder, where both groups read strictly. */
  lemma ReadPairAgrees(codes: seq<int>, index: nat, zLat: nat, i1: nat, zLon: nat, i2: nat)
    requires ReadValue(codes, index, 0) == Success((zLat, i1))
    requires ReadValue(codes, i1, 0) == Success((zLon, i2))
    ensures ReadPair(codes, index) == ((ZigZagDecode(zLat), ZigZagDecode(zLon)), i2)
  {
    GroupAgrees(codes, index);
    GroupAgrees(codes, i1);
  }

  /** A successful strict step: both groups read, and the rest decodes too. */
  lemma DecodeStrictParts(codes: seq<int>, index: nat, lat: int, lon: int)
      returns (zLat: nat, i1: nat, zLon: nat, i2: nat, p: GeoPoint, rest: seq<GeoPoint>)
    requires index < |codes| && DecodeStrictFrom(codes, index, lat, lon).Success?
    ensures ReadValue(codes, index, 0) == Success((zLat, i1))
    ensures ReadValue(codes, i1, 0) == Success((zLon, i2))
    ensures p == GeoPoint(lat + ZigZagDecode(zLat), lon + ZigZagDecode(zLon))
    ensures DecodeStrictFrom(codes, i2, p.lat, p.lon) == Success(rest)
    ensures DecodeStrictFrom(codes, index, lat, lon) == Success([p] + rest)
  {
    var gLat := ReadValue(codes, index, 0).value;
    var gLon := ReadValue(codes, gLat.1, 0).value;
    zLat, i1, zLon, i2 := gLat.0, gLat.1, gLon.0, gLon.1;
    p := GeoPoint(lat + ZigZagDecode(zLat), lon + ZigZagDecode(zLon));
    rest := DecodeStrictFrom(codes, i2, p.lat, p.lon).value;
  }

  /** One step of the lenient decoder: a pair of groups, then the rest. */
  lemma {:induction false} DecodeFromUnrolled(codes: seq<int>, index: nat, lat: int, lon: int)
    requires index < |codes|
    ensures var r := ReadPair(codes, index);
            var p := GeoPoint(lat + r.0.0, lon + r.0.1);
            DecodeFrom(codes, index, lat, lon) == [p] + DecodeFrom(codes, r.1, p.lat, p.lon)
  {
    var r := ReadPair(codes, index);
    var p := GeoPoint(lat + r.0.0, lon + r.0.1);
    assert DecodeFrom(codes, index, lat, lon) == [p] + DecodeFrom(codes, r.1, p.lat, p.lon);
  }

  /** The same step, once the pair read at `index` is known. */
  lemma DecodeFromStep(codes: seq<int>, index: nat, lat: int, lon: int, dLat: int, dLon: int, next: nat,
                       p: GeoPoint, rest: seq<GeoPoint>)
    requires index < |codes| && ReadPair(codes, index) == ((dLat, dLon), next)
    requires p == GeoPoint(lat + dLat, lon + dLon) && DecodeFrom(codes, next, p.lat, p.lon) == rest
    ensures DecodeFrom(codes, index, lat, lon) == [p] + rest
  {
    DecodeFromUnrolled(codes, index, lat, lon);
  }

  /** Wherever the strict decoder succeeds, the lenient one returns the same points. */
  lemma {:induction false} DecodeFromAgrees(codes: seq<int>, index: nat, lat: int, lon: int)
    requires DecodeStrictFrom(codes, index, lat, lon).Success?
    ensures DecodeFrom(codes, index, lat, lon) == DecodeStrictFrom(codes, index, lat, lon).value
    decreases |codes| - index
  {
    if index < |codes| {
      var zLat, i1, zLon, i2, p, rest := DecodeStrictParts(codes, index, lat, lon);
      ReadPairAgrees(codes, index, zLat, i1, zLon, i2);
      DecodeFromAgrees(codes, i2, p.lat, p.lon);
      DecodeFromStep(codes, index, lat, lon, ZigZagDecode(zLat), ZigZagDecode(zLon), i2, p, rest);
    }
  }

  /**
   * The app's decoder is sound on well-formed input: whenever the strict
   * decoder accepts a string, `decodePolyline` returns exactly its points.
   */
  lemma DecodeAgrees(codes: seq<int>)
    requires DecodeStrict(codes).Success?
    ensures Decode(codes) == DecodeStrict(codes).value
  {
    DecodeFromAgrees(codes, 0, 0, 0);
  }

  /**
   * Wherever the strict decoder succeeds, the lenient loop's last group
   * ended exactly at the end of the string: it never read past it.
   */
  lemma {:induction false} StrictEndsAtEnd(codes: seq<int>, index: nat, lat: int, lon: int)
    requires index <= |codes|
    ensures DecodeStrictFrom(codes, index, lat, lon).Success? ==> ScanEnd(codes, index) == |codes|
    decreases |codes| - index
  {
    if index < |codes| && DecodeStrictFrom(codes, index, lat, lon).Success? {
      var zLat, i1, zLon, i2, p, rest := DecodeStrictParts(codes, index, lat, lon);
      ReadPairAgrees(codes, index, zLat, i1, zLon, i2);
      StrictEndsAtEnd(codes, i2, p.lat, p.lon);
    }
  }

  /**
   * Converse of `DecodeFromAgrees` for cut strings: where the lenient loop
   * had to read past the end of the string (reading the missing characters
   * as `?`), the strict decoder rejects the string.
   */
  lemma StrictRejectsPadding(codes: seq<int>, index: nat, lat: int, lon: int)
    requires index <= |codes| && ScanEnd(codes, index) > |codes|
    ensures DecodeStrictFrom(codes, index, lat, lon).Failure?
  {
    StrictEndsAtEnd(codes, index, lat, lon);
  }

  /** `StrictRejectsPadding` for a whole string. */
  lemma StrictRejectsCutLine(codes: seq<int>)
    requires ScanEnd(codes, 0) > |codes|
    ensures DecodeStrict(codes).Failure?
  {
    StrictRejectsPadding(codes, 0, 0, 0);
  }

  /**
   * Round trip: encoding points with the standard algorithm and decoding the
   * result, strictly or as the app does, gives back the same points.
   */
  lemma RoundTrip(ps: seq<GeoPoint>)
    requires Encodable(ps)
    ensures DecodeStrict(Encode(ps)) == Success(ps)
    ensures Decode(Encode(ps)) == ps
  {
    assert Encode(ps)[0..|Encode(ps)|] == Encode(ps);
    DecodeStrictEncoded(Encode(ps), 0, ps, 0, 0);
    DecodeAgrees(Encode(ps));
  }
}

=== FILE: polyline_examples.dfy ===
/**
 * Worked examples of the polyline format: the canonical three-point line
 * from the format's documentation, and what the lenient decoder does with
 * a line cut short, between two groups or inside one.
 */
module PolylineExamples {
  import opened Wrappers
  import opened Geo
  import opened Polyline
  import opened PolylineCodec

  /** The character codes of `_p~iF~ps|U`: the first point's two groups. */
  const FirstPoint: seq<int> := [95, 112, 126, 105, 70, 126, 112, 115, 124, 85]
  /** The character codes of `_ulLnnqC`: the second point's two groups. */
  const SecondPoint: seq<int> := [95, 117, 108, 76, 110, 110, 113, 67]
  /** The character codes of `_mqNvxq`@`: the third point's two groups. */
  const ThirdPoint: seq<int> := [95, 109, 113, 78, 118, 120, 113, 96, 64]

  /** The character codes of `_p~iF~ps|U_ulLnnqC_mqNvxq`@`. */
  const Canonical: seq<int> := FirstPoint + SecondPoint + ThirdPoint

  /** (38.5, -120.2), (40.7, -120.95), (43.252, -126.453) in 1e-5 degree units. */
  const CanonicalPoints: seq<GeoPoint> :=
    [GeoPoint(3850000, -12020000), GeoPoint(4070000, -12095000), GeoPoint(4325200, -12645300)]

  /** The groups of the first canonical point's deltas. */
  lemma FirstPointGroups()
    ensures EncodeValue(7700000) == [95, 112, 126, 105, 70]
    ensures EncodeValue(24039999) == [126, 112, 115, 124, 85]
  {
    assert EncodeValue(234) == [105] + EncodeValue(7);
    assert EncodeValue(7519) == [126] + EncodeValue(234);
    assert EncodeValue(240625) == [112] + EncodeValue(7519);
    assert EncodeValue(7700000) == [95] + EncodeValue(240625);
    assert EncodeValue(733) == [124] + EncodeValue(22);
    assert EncodeValue(23476) == [115] + EncodeValue(733);
    assert EncodeValue(751249) == [112] + EncodeValue(23476);
    assert EncodeValue(24039999) == [126] + EncodeValue(751249);
  }

  /** The groups of the second canonical point's deltas. */
  lemma SecondPointGroups()
    ensures EncodeValue(440000) == [95, 117, 108, 76]
    ensures EncodeValue(149999) == [110, 110, 113, 67]
  {
    assert EncodeValue(429) == [108] + EncodeValue(13);
    assert EncodeValue(13750) == [117] + EncodeValue(429);
    assert EncodeValue(440000) == [95] + EncodeValue(13750);
    assert EncodeValue(146) == [113] + EncodeValue(4);
    assert EncodeValue(4687) == [110] + EncodeValue(146);
    assert EncodeValue(149999) == [110] + EncodeValue(4687);
  }

  /** The groups of the third canonical point's deltas. */
  lemma ThirdPointGroups()
    ensures EncodeValue(510400) == [95, 109, 113, 78]
    ensures EncodeValue(1100599) == [118, 120, 113, 96, 64]
  {
    assert EncodeValue(498) == [113] + EncodeValue(15);
    assert EncodeValue(15950) == [109] + EncodeValue(498);
    assert EncodeValue(510400) == [95] + EncodeValue(15950);
    assert EncodeValue(33) == [96] + EncodeValue(1);
    assert EncodeValue(1074) == [113] + EncodeValue(33);
    assert EncodeValue(34393) == [120] + EncodeValue(1074);
    assert EncodeValue(1100599) == [118] + EncodeValue(34393);
  }

  /** The last canonical point, encoded after the second. */
  lemma EncodeThirdPoint()
    ensures EncodeFrom([GeoPoint(4325200, -12645300)], 4070000, -12095000) == ThirdPoint
  {
    ThirdPointGroups();
    var ps := [GeoPoint(4325200, -12645300)];
    EncodeFromHead(ps, 4070000, -12095000, 510400, 1100599);
    assert EncodeFrom(ps[1..], 4325200, -12645300) == [] by { assert ps[1..] == []; }
    assert ThirdPoint == [95, 109, 113, 78] + ([118, 120, 113, 96, 64] + []);
  }

  /** The last two canonical points, encoded after the first. */
  lemma EncodeLastTwoPoints()
    ensures EncodeFrom([GeoPoint(4070000, -12095000), GeoPoint(4325200, -12645300)], 3850000, -12020000)
         == SecondPoint + ThirdPoint
  {
    SecondPointGroups();
    EncodeThirdPoint();
    var ps := [GeoPoint(4070000, -12095000), GeoPoint(4325200, -12645300)];
    EncodeFromHead(ps, 3850000, -12020000, 440000, 149999);
    assert ps[1..] == [GeoPoint(4325200, -12645300)];
    assert SecondPoint == [95, 117, 108, 76] + [110, 110, 113, 67];
  }

  /** The encoder writes the canonical line for its three points. */
  lemma CanonicalEncodes()
    ensures Encode(CanonicalPoints) == Canonical
  {
    FirstPointGroups();
    EncodeLastTwoPoints();
    EncodeFromHead(CanonicalPoints, 0, 0, 7700000, 24039999);
    assert CanonicalPoints[1..] == [GeoPoint(4070000, -12095000), GeoPoint(4325200, -12645300)];
    assert FirstPoint == [95, 112, 126, 105, 70] + [126, 112, 115, 124, 85];
  }

  /** The canonical line decodes to its three points, strictly and leniently. */
  lemma CanonicalDecodes()
    ensures DecodeStrict(Canonical) == Success(CanonicalPoints)
    ensures Decode(Canonical) == CanonicalPoints
  {
    assert Encodable(CanonicalPoints);
    RoundTrip(CanonicalPoints);
    CanonicalEncodes();
  }

  /** The characters of the first canonical latitude group alone. */
  const LatitudeOnly: seq<int> := [95, 112, 126, 105, 70]

  /** The one group of `LatitudeOnly` reads strictly as the zig-zagged 38.5. */
  lemma LatitudeOnlyGroup()
    ensures ReadValue(LatitudeOnly, 0, 0) == Success((7700000, 5))
  {
    FirstPointGroups();
    assert HasAt(LatitudeOnly, 0, EncodeValue(7700000));
    JsNumbers.Pow2Values();
    ReadEncodedValue(LatitudeOnly, 0, 7700000, 0, 5);
  }

  /**
   * A line cut after its first latitude group: the lenient decoder still
   * emits a point, reading the missing longitude delta as 0.
   */
  lemma TruncatedLineDecodes()
    ensures Decode(LatitudeOnly) == [GeoPoint(3850000, 0)]
  {
    LatitudeOnlyGroup();
    ReadGroupAgrees(LatitudeOnly, 0, 0, 0, 0);
    assert ReadGroup(LatitudeOnly, 0, 0, 0) == (7700000, 5);
    assert ReadGroup(LatitudeOnly, 5, 0, 0) == (0, 6);
    assert ReadPair(LatitudeOnly, 0) == ((3850000, 0), 6);
  }

  /** The strict decoder reports the same line as truncated at its end. */
  lemma TruncatedLineFails()
    ensures DecodeStrict(LatitudeOnly) == Failure(Truncated(5))
  {
    LatitudeOnlyGroup();
    assert ReadValue(LatitudeOnly, 5, 0) == Failure(Truncated(5));
  }

  /** `_p~i`: the first latitude group cut off after four of its five characters. */
  const CutInsideGroup: seq<int> := [95, 112, 126, 105]

  /** Past the end of the string a group ends at once, adding nothing. */
  lemma ReadGroupPastEnd(codes: seq<int>, index: nat)
    requires |codes| <= index
    ensures ReadGroup(codes, index, 0, 0) == (0, index + 1)
  {
    JsNumbers.OrShiftedChunk(0, 0, 0);
  }

  /** The characters of `_p~i`, given one by one. */
  predicate IsCutGroup(codes: seq<int>)
  {
    |codes| == 4 && codes[0] == 95 && codes[1] == 112 && codes[2] == 126 && codes[3] == 105
  }

  /**
   * The cut group reads as the complete group `_p~i?`, whose chunks are 0,
   * 17, 31, 10 and 0.
   */
  lemma CutGroupValue(codes: seq<int>)
    requires IsCutGroup(codes)
    ensures ReadGroup(codes, 0, 0, 0) == (359968, 5)
  {
    var padded := codes + [Offset];
    assert ReadValue(padded, 4, 4) == Success((0, 5));
    assert ReadValue(padded, 3, 3) == Success((10, 5));
    assert ReadValue(padded, 2, 2) == Success((351, 5));
    assert ReadValue(padded, 1, 1) == Success((11249, 5));
    assert ReadValue(padded, 0, 0) == Success((359968, 5));
    GroupAgrees(padded, 0);
    PastEndReadsAsTerminator(codes, 0, 0, 0);
  }

  /**
   * A line cut inside a group: the lenient decoder ends the group at the
   * end of the string and emits a point at latitude 1.79984 where the full
   * group would have given 38.5.
   */
  lemma CutInsideGroupDecodes()
    ensures Decode(CutInsideGroup) == [GeoPoint(179984, 0)]
  {
    CutGroupValue(CutInsideGroup);
    ReadGroupPastEnd(CutInsideGroup, 5);
    assert ReadPair(CutInsideGroup, 0) == ((179984, 0), 6);
  }

  /** The strict decoder reports the same line as truncated at its end. */
  lemma CutInsideGroupFails()
    ensures DecodeStrict(CutInsideGroup) == Failure(Truncated(4))
  {
    assert ReadValue(CutInsideGroup, 4, 4) == Failure(Truncated(4));
    assert ReadValue(CutInsideGroup, 0, 0) == Failure(Truncated(4));
  }
}

=== FILE: search.dfy ===
/**
 * The search bar's `handleSearch` handler (components/SearchBar.js):
 * refuse a blank query, otherwise ask the geocoding service for one match
 * and hand its position to the app as the new destination.
 *
 * The geocoding service is a parameter: the response it would give is
 * passed in, and the handler's effects are returned together.
 */
module Search {
  import opened Wrappers
  import opened Geo

  // ----- String.prototype.trim -----

  /**
   * The characters JavaScript's `trim` removes: the WhiteSpace and
   * LineTerminator code points of ECMAScript (section 12.2 and 12.3 of
   * ECMA-262), including the Unicode space separators.
   */
  predicate IsJsWhitespace(c: char)
  {
    var n := c as int;
    n == 0x09 || n == 0x0A || n == 0x0B || n == 0x0C || n == 0x0D || n == 0x20
    || n == 0xA0 || n == 0x1680 || (0x2000 <= n <= 0x200A) || n == 0x2028 || n == 0x2029
    || n == 0x202F || n == 0x205F || n == 0x3000 || n == 0xFEFF
  }

  /** Every character of `s` is whitespace. */
  predicate Blank(s: string)
  {
    forall i :: 0 <= i < |s| ==> IsJsWhitespace(s[i])
  }

  /** `s` with its leading whitespace removed. */
  function TrimStart(s: string): (r: string)
    ensures |r| <= |s| && r == s[|s| - |r|..]
    ensures Blank(s[..|s| - |r|])
    ensures r != [] ==> !IsJsWhitespace(r[0])
  {
    if s != [] && IsJsWhitespace(s[0]) then
      var r := TrimStart(s[1..]);
      assert s[..|s| - |r|] == [s[0]] + s[1..][..|s| - 1 - |r|];
      r
    else s
  }

  /** `s` with its trailing whitespace removed. */
  function TrimEnd(s: string): (r: string)
    ensures |r| <= |s| && r == s[..|r|]
    ensures Blank(s[|r|..])
    ensures r != [] ==> !IsJsWhitespace(r[|r| - 1])
  {
    if s != [] && IsJsWhitespace(s[|s| - 1]) then
      var r := TrimEnd(s[..|s| - 1]);
      assert s[|r|..] == s[..|s| - 1][|r|..] + [s[|s| - 1]];
      r
    else s
  }

  /** `r` is the slice of `s` from `i`, and all that lies outside it is whitespace. */
  predicate CutFromEnds(s: string, r: string, i: nat)
  {
    i + |r| <= |s| && r == s[i..i + |r|] && Blank(s[..i]) && Blank(s[i + |r|..])
  }

  /** `s.trim()`: a slice of `s` with only whitespace cut from either end. */
  function Trim(s: string): (r: string)
    ensures |r| <= |s|
    ensures exists i :: CutFromEnds(s, r, i)
    ensures r != [] ==> !IsJsWhitespace(r[0]) && !IsJsWhitespace(r[|r| - 1])
  {
    var t := TrimStart(s);
    var r := TrimEnd(t);
    CutTwice(s, t, r);
    r
  }

  /** Cutting whitespace from the front and then from the back cuts it from both ends. */
  lemma CutTwice(s: string, t: string, r: string)
    requires |t| <= |s| && t == s[|s| - |t|..] && Blank(s[..|s| - |t|])
    requires |r| <= |t| && r == t[..|r|] && Blank(t[|r|..])
    ensures CutFromEnds(s, r, |s| - |t|)
  {
    var i := |s| - |t|;
    assert s[i..i + |r|] == t[..|r|];
    assert s[i + |r|..] == t[|r|..];
  }

  /** A string trims to nothing exactly when it is all whitespace. */
  lemma TrimEmptyIffBlank(s: string)
    ensures Trim(s) == [] <==> Blank(s)
  {
    var t := TrimStart(s);
    assert s == s[..|s| - |t|] + t;
    if Trim(s) == [] {
      assert t == [] by {
        assert Blank(t[|Trim(s)|..]);
      }
      forall i | 0 <= i < |s|
        ensures IsJsWhitespace(s[i])
      {
        assert s[i] == s[..|s| - |t|][i];
      }
    }
  }

  /** Trimming twice is trimming once. */
  lemma TrimIdempotent(s: string)
    ensures Trim(Trim(s)) == Trim(s)
  {
    var r := Trim(s);
    if r != [] {
      assert TrimStart(r) == r;
      assert TrimEnd(r) == r;
    }
  }

  // ----- the handler -----

  /** The geocoding service's answer: matches in rank order, or a thrown error. */
  datatype SearchResponse = Places(results: seq<GeoPoint>) | SearchFailed

  /** The three alerts the handler can raise. */
  datatype SearchAlert = EmptyQuery | NoResults | SearchFetchFailed

  /** The query string sent: the text as typed, and at most `limit` matches wanted. */
  datatype SearchRequest = SearchRequest(query: string, limit: nat)

  /** What one submission of the search bar does. */
  datatype SearchOutcome = SearchOutcome(
    request: Option<SearchRequest>,
    destination: Option<GeoPoint>,
    alert: Option<SearchAlert>,
    loadingWrites: seq<bool>)

  /** Matches asked of the service per search. */
  const ResultLimit: nat := 1

  /**
   * One submission of `query`, with `destination` the current destination
   * and `response` what the service answers if asked.
   */
  function HandleSearch(query: string, destination: Option<GeoPoint>, response: SearchResponse): (o: SearchOutcome)
    ensures o.request.None? <==> Blank(query)
    ensures o.request.Some? ==> o.request.value == SearchRequest(query, ResultLimit)
    ensures o.request.None? ==> o.alert == Some(EmptyQuery) && o.loadingWrites == []
    ensures o.request.Some? ==> o.loadingWrites == [true, false]
    ensures o.alert.None? <==> o.request.Some? && response.Places? && |response.results| > 0
    ensures o.alert.None? ==> o.destination == Some(response.results[0])
    ensures o.alert.Some? ==> o.destination == destination
    ensures o.request.Some? && response == Places([]) ==> o.alert == Some(NoResults)
    ensures o.request.Some? && response.SearchFailed? ==> o.alert == Some(SearchFetchFailed)
  {
    TrimEmptyIffBlank(query);
    if Trim(query) == [] then
      SearchOutcome(None, destination, Some(EmptyQuery), [])
    else
      var request := Some(SearchRequest(query, ResultLimit));
      match response
      case SearchFailed =>
        SearchOutcome(request, destination, Some(SearchFetchFailed), [true, false])
      case Places(results) =>
        if |results| > 0 then
          SearchOutcome(request, Some(results[0]), None, [true, false])
        else
          SearchOutcome(request, destination, Some(NoResults), [true, false])
  }

  /** A search never clears the destination: it is replaced or left as it was. */
  lemma DestinationNeverCleared(query: string, destination: Option<GeoPoint>, response: SearchResponse)
    requires destination.Some?
    ensures HandleSearch(query, destination, response).destination.Some?
  {
  }

  /** Only the top-ranked match counts: the matches after it change nothing. */
  lemma SearchAlternatesIgnored(query: string, destination: Option<GeoPoint>, best: GeoPoint, others: seq<GeoPoint>)
    ensures HandleSearch(query, destination, Places([best] + others))
         == HandleSearch(query, destination, Places([best]))
  {
  }

  /** Surrounding whitespace does not change whether a query is sent. */
  lemma PaddingKeepsRefusal(query: string, pad1: string, pad2: string,
                            destination: Option<GeoPoint>, response: SearchResponse)
    requires Blank(pad1) && Blank(pad2)
    ensures HandleSearch(pad1 + query + pad2, destination, response).request.None?
        <==> HandleSearch(query, destination, response).request.None?
  {
    var s := pad1 + query + pad2;
    if Blank(query) {
      forall i | 0 <= i < |s|
        ensures IsJsWhitespace(s[i])
      {
        if i < |pad1| {
          assert s[i] == pad1[i];
        } else if i < |pad1| + |query| {
          assert s[i] == query[i - |pad1|];
        } else {
          assert s[i] == pad2[i - |pad1| - |query|];
        }
      }
    } else {
      var i :| 0 <= i < |query| && !IsJsWhitespace(query[i]);
      assert s[|pad1| + i] == query[i];
    }
  }
}

=== FILE: wrappers.dfy ===
/** The Option and Result datatypes shared by the model; Result supports `:-`. */
module Wrappers {

  /** A value that may be absent: JavaScript's `null` in the app's state. */
  datatype Option<+T> = None | Some(value: T)

  /** Either a computed value or the reason it could not be computed. */
  datatype Result<+R, +E> = Success(value: R) | Failure(error: E) {

    predicate IsFailure() {
      Failure?
    }

    function PropagateFailure<U>(): Result<U, E>
      requires Failure?
    {
      Failure(error)
    }

    function Extract(): R
      requires Success?
    {
      value
    }
  }
}
